=== FILE: README.md ===
# Bigram name model in Dafny

A model of the character-level bigram language model in `src/bigram_model.py`.
It has three parts that share one N×N matrix of bigram probabilities:

- **Probability builder** (`bigrams_count_to_probabilities`). Adds a smoothing
  constant to every bigram count and divides each row by its smoothed total.
- **Scorer** (`calculate_log_likelihood`, `calculate_neg_mean_log_likelihood`).
  Wraps a word as start token + lower-cased word + end token, walks every
  adjacent character pair, looks the pair up in the matrix and sums the
  logarithms. The corpus metric is the negated mean of these word scores.
- **Sampler and generator** (`sample_next_character`, `generate_name`). From
  the start token, draws the next symbol from the current symbol's row. It
  stops on the end token or after `max_length` draws.

Modules:

- `Results`: the exceptions the code can raise, as an error datatype. It also
  holds a traversal that stops at the first failure, the way a Python loop
  stops at the first exception.
- `Matrices`: exact real sums and products over rows, and tensor indexing
  with Python's negative-index rule.
- `Vocabulary`: the two dictionaries and their failing lookups.
- `Probabilities`, `Scoring`, `Generation`: the three parts above.

Inputs the code takes from outside are parameters:

- The natural logarithm is a function parameter `log`. Each property states
  the one fact about `log` it relies on: non-positive on (0, 1], or turning
  products into sums.
- The random draw of `torch.multinomial` is an oracle `draws: seq<int>`.
  Step `t` of the generator uses `draws[t]`.

Errors follow the exceptions the code raises:

- `UnknownSymbol` for a KeyError on `char_to_index`.
- `UnknownIndex` for a KeyError on `idx_to_char`.
- `IndexOutOfRange` for an IndexError on the tensor.
- `DivisionByZero` for the empty corpus.

The model departs from the code in two places and keeps one of its
behaviours as it is:

- Departure: the code divides a row by its smoothed total unchecked, so a
  zero total yields NaN or ±inf cells. The model makes a non-zero total a
  precondition (`Normalisable`).
- Departure: `torch.multinomial` checks the row it draws from and raises a
  RuntimeError on a negative, infinite or NaN entry, or on a sum that is not
  positive. The model's sampler takes the draw from an oracle and never fails
  on the content of the row.
- Kept: the scorer looks up the processed word one character at a time. The
  docstrings say that start and end tokens "shall be a single character", and
  the default tokens `"<S>"` and `"<E>"` are split into their characters.
  `Scoring.MultiCharacterTokenIsSplit` pins down what then happens.

## Model

| member | source | states |
|---|---|---|
| Probabilities.Normalise | src/bigram_model.py:25-27 | The result has the shape of the count matrix, and each cell times its row's smoothed total equals the smoothed count, so each cell is (count + s) / Σ(count + s) |
| Probabilities.NormaliseRow | src/bigram_model.py:27 | One divided row has exactly one entry per count of the row |
| Probabilities.RowSumsToOne | src/bigram_model.py:25-27 | A non-empty row divided by its non-zero smoothed total sums to exactly 1 |
| Probabilities.SmoothedTotalIsShifted | src/bigram_model.py:25-26 | The denominator of a row is its raw total plus s once per cell |
| Probabilities.RowsSumToOne | src/bigram_model.py:25-27 | Every non-empty row of the result sums to exactly 1 when no smoothed total is zero |
| Probabilities.EntriesAreProbabilities | src/bigram_model.py:25-27 | With non-negative counts and s ≥ 0, every entry lies in [0, 1] |
| Probabilities.SmoothingMakesPositive | src/bigram_model.py:25-27 | With non-negative counts and s > 0, no smoothed total is zero and every entry lies in (0, 1] |
| Probabilities.UnseenRowIsUniform | src/bigram_model.py:25-27 | A row of zero counts with non-zero smoothing becomes the uniform distribution 1/n |
| Probabilities.SmoothedRowExample | src/bigram_model.py:25-27 | Counts 0, 0, 3, 1 smoothed by 1 have total 8 and become 1/8, 1/8, 1/2, 1/4 |
| Probabilities.LargerSmoothingKeepsTotal | src/bigram_model.py:25-26 | For a non-empty row of non-negative counts and 0 ≤ s ≤ s' with a non-zero total at s, the total at s is positive and the total at s' is no smaller |
| Probabilities.SmoothingTowardsUniform | src/bigram_model.py:25-27 | For non-negative counts and 0 ≤ s ≤ s' with both totals non-zero, raising s from s to s' never moves an entry further from 1/n, so the row moves towards uniform |
| Scoring.Lower | src/bigram_model.py:170 | Lower-casing keeps the length, maps each upper-case ASCII letter to the lower-case letter at the same alphabet position, and keeps every other character |
| Scoring.Processed | src/bigram_model.py:170 | The processed word is the start token, then each character of the word lower-cased in place, then the end token |
| Scoring.Bigrams | src/bigram_model.py:176-178 | The walk has len(s) - 1 pairs (none for a string shorter than 2), and pair t is (s[t], s[t+1]) |
| Scoring.ScoredPairs | src/bigram_model.py:170-178 | With one-character tokens a word of n letters gives n + 1 pairs: from the start token through the lower-cased letters to the end token |
| Scoring.PairProbability | src/bigram_model.py:177-179 | A pair is scored only when both characters are keys, otherwise the first missing one is reported as a KeyError; with in-range indices the score is the cell m[c2i[c1]][c2i[c2]] |
| Scoring.LogLikelihood | src/bigram_model.py:170-181 | A processed word shorter than 2 scores 0 (no loop iteration), and scoring can only fail with a KeyError or an IndexError |
| Scoring.WalkReadsCells | src/bigram_model.py:176-179 | When every character is a key and the vocabulary indexes the square matrix, iteration t reads the cell m[c2i[s[t]]][c2i[s[t+1]]] |
| Scoring.ScoreSumsLoggedCells | src/bigram_model.py:170-181 | When the vocabulary indexes the square matrix (every value a valid row and column) and every processed character is a key, the word is scored and its score is the sum of the logs of the cells the walk reads |
| Scoring.UnknownSymbolFails | src/bigram_model.py:176-178 | In a processed word of at least 2 characters, any character that is not a key makes scoring fail; it is never skipped (a shorter processed word runs no iteration and looks nothing up) |
| Scoring.ScoringFailsOnlyOnUnknownSymbols | src/bigram_model.py:176-179 | When the vocabulary indexes the square matrix and the processed word has at least 2 characters, scoring succeeds iff every character of the processed word is a key, and a failure names a missing character |
| Scoring.MultiCharacterTokenIsSplit | src/bigram_model.py:170-178 | With tokens "<S>"/"<E>" and a vocabulary keyed by whole tokens, scoring "a" fails on the character "<" |
| Scoring.LogLikelihoodNonPositive | src/bigram_model.py:173-181 | With entries in (0, 1] and log non-positive there, a word's log-likelihood is at most 0 |
| Scoring.LikelihoodIsProbability | src/bigram_model.py:173-181 | With entries in (0, 1], the product of a word's pair probabilities lies in [0, 1] |
| Scoring.LogLikelihoodIsLogOfLikelihood | src/bigram_model.py:176-181 | With every entry in (0, 1] and a log that turns products into sums, the log-likelihood fails on the same words as the likelihood and equals log of it |
| Scoring.ScoreWord | src/bigram_model.py:170-181 | Building the processed word and running the loop computes exactly LogLikelihood |
| Scoring.ScoreString | src/bigram_model.py:173-181 | The accumulating loop over i = 1 .. len - 1 returns the sum of the logs of the walk's probabilities, or the error of the first failing lookup |
| Scoring.NegMeanLogLikelihood | src/bigram_model.py:56-65 | An empty corpus is a division by zero; the metric exists iff the corpus is non-empty and every word scores, and it is -(sum of word scores) / len(words) |
| Scoring.WordScores | src/bigram_model.py:59-62 | The per-word scores exist iff every word scores, score t being word t's log-likelihood; otherwise the error is that of a failing word |
| Scoring.CorpusMetricIsNegatedMean | src/bigram_model.py:56-65 | When every word t of a non-empty corpus has log-likelihood scores[t], the metric is -(sum of scores) / len(words) |
| Scoring.CorpusScoresWhenEveryWordScores | src/bigram_model.py:59-65 | A non-empty corpus is scored iff every word is, and score t is word t's log-likelihood; it collects the contracts of `NegMeanLogLikelihood` and `WordScores` in one place |
| Scoring.SingleWordCorpus | src/bigram_model.py:56-65 | A one-word corpus gives the negated score of that word, or that word's error |
| Scoring.NegMeanNonNegative | src/bigram_model.py:56-65 | With entries in (0, 1] and log non-positive there, the corpus metric is at least 0 |
| Scoring.CorpusReportsFirstFailure | src/bigram_model.py:59-62 | A failing corpus fails with the error of its first failing word |
| Generation.SampleNext | src/bigram_model.py:86-92 | A draw gives idx_to_char of the drawn index; an out-of-range row index is an IndexError and an unknown drawn index a KeyError |
| Generation.Emit | src/bigram_model.py:128-135 | One step looks up the current symbol's index (a KeyError if it is missing), draws the next symbol, stops on the end token and otherwise appends it and goes on; no steps left gives nothing, an unknown current symbol with steps left is a KeyError naming it, and at most `steps` symbols come out. `EmittedSymbols` states what the recursion produces, and `EmitSucceedsOnlyOnKnownSymbols` that a success looked up only keys whose index selects a row |
| Generation.EmitSucceedsOnlyOnKnownSymbols | src/bigram_model.py:128-135 | A successful run with steps left looked up only keys: the start symbol and every emitted symbol a later iteration went on from are keys of `char_to_idx` whose index selects a row (no KeyError at :129, no IndexError at :86) |
| Generation.EmittedSymbols | src/bigram_model.py:128-135 | The emitted symbols number at most `steps`, none of them is the end token, and symbol t is idx_to_char of draw t; stopping early means the next draw was the end token |
| Generation.Generate | src/bigram_model.py:124-137 | max_length ≤ 0 gives the empty name; otherwise a start token that is not a key is a KeyError |
| Generation.GeneratedNameBounded | src/bigram_model.py:124-137 | With one-character symbols the name has at most max_length characters, character t is the symbol of draw t, and the end character never appears |
| Generation.GenerationNeverFails | src/bigram_model.py:128-135 | With a consistent vocabulary covering the matrix, a known start token and draws that are row indices, generation succeeds |
| Generation.GenerateName | src/bigram_model.py:124-137 | The for/break loop computes exactly what Generate states |
| Matrices.RowAt | src/bigram_model.py:86 | Selecting a row succeeds iff -n ≤ i < n; a non-negative index selects row i and a negative one row n + i; outside the range it is an IndexError naming i |
| Matrices.CellAt | src/bigram_model.py:179 | An out-of-range row index j, or else an out-of-range column index k, is an IndexError naming it; otherwise the cell is m[j][k] after Python's negative-index wrap of each |
| Results.Traverse | src/bigram_model.py:176-179 | A loop over fallible steps succeeds iff every step does, collecting their values in order; otherwise it fails with the first failing step's error |
| Results.TraverseFirstFailure | src/bigram_model.py:59-62 | A traversal fails with the error of its first failing step, whatever follows |

## Left out

- Tensor mechanics and float32 rounding (`unsqueeze`, broadcasting, `.item()`, the float32 accumulators). Arithmetic is exact `real`.
- `torch.log` as a numeric function. Each property assumes only the fact about `log` it names.
- `torch.multinomial` and the global random source. They are replaced by an oracle of drawn indices. The model does not state that the draws follow the row's distribution, nor the checks multinomial makes on its input row.
- Unicode `str.lower()`. Lower-casing is modelled for ASCII letters only.
- The empty `__main__` block (src/bigram_model.py:184-185).
- The smoothing factor is typed `int` in the code. The model takes any `real`, which includes every integer.
- Probabilities.Normalise: the zero smoothed row total is a precondition, not a result. The code divides by it unchecked and yields NaN or ±inf there.
- Probabilities.NormaliseRow: its own contract gives only the row length. The value of each cell is stated by `Normalise`, and the sum of a row by `RowSumsToOne`.
- Probabilities.SmoothingTowardsUniform: proves that entries move towards 1/n without moving away, not that the row's variance strictly falls. A row whose counts are already equal does not move at all, so "strictly" does not hold for every row.
- Generation.SampleNext: never fails on the content of the row. `torch.multinomial` raises a RuntimeError on a negative, infinite or NaN entry or a non-positive sum, and this is not modelled because the draw is an oracle.
- Default arguments: `smooth_factor=0` (src/bigram_model.py:6), `start_token="<S>"` and `end_token="<E>"` (src/bigram_model.py:35-36, :144-145) and `max_length=15` (src/bigram_model.py:102). Every model member takes these values as explicit parameters, so callers pass them.
- Generate and GenerateName need at least `max(0, max_length)` draws from the oracle, one per possible iteration.
- Building the count matrix and the vocabulary, and loading names, are done outside the modelled file and are not part of this model.
- Rebuilding the probabilities twice with the same inputs gives the same output. This holds because `Normalise` is a pure function, so there is no separate lemma for it.

=== FILE: generation.dfy ===
/** The character sampler (`sample_next_character`) and the sequence
    generator (`generate_name`).

    The random draw `torch.multinomial(row, 1)` is replaced by an oracle: the
    caller supplies the sequence of indices the draws produce, and step `t`
    of the generator consumes `draws[t]`. */
module Generation {
  import opened Results
  import opened Matrices
  import opened Vocabulary

  // ---------------------------------------------------------------------------
  // One draw

  /** `sample_next_character(current, m, idx_to_char)` when the draw from
      row `current` yields index `draw`: selecting the row fails on an index
      out of range, and mapping the drawn index back fails on an index the
      dictionary does not know. */
  function SampleNext(current: int, m: Matrix, i2c: IndexToSymbol, draw: int): (r: Result<Symbol>)
    ensures r.Ok? <==> -|m| <= current < |m| && draw in i2c
    ensures r.Ok? ==> r.value == i2c[draw]
    ensures !(-|m| <= current < |m|) ==> r == Err(IndexOutOfRange(current))
    ensures -|m| <= current < |m| && draw !in i2c ==> r == Err(UnknownIndex(draw))
  {
    var row :- RowAt(m, current);
    SymbolOf(i2c, draw)
  }

  // ---------------------------------------------------------------------------
  // The generator

  /** The number of iterations of `for _ in range(max_length)`. */
  function Steps(maxLength: int): nat {
    if maxLength < 0 then 0 else maxLength
  }

  /** The symbols the generator appends, starting from symbol `current`
      with `steps` iterations left: look up the current symbol's index, draw
      the next symbol, stop on the end token, otherwise append it and go on
      from it. `EmittedSymbols` states what it produces. */
  function Emit(current: Symbol, end: Symbol, c2i: SymbolToIndex, i2c: IndexToSymbol, m: Matrix,
                steps: nat, draws: seq<int>): (r: Result<seq<Symbol>>)
    requires |draws| >= steps
    ensures steps == 0 ==> r == Ok([])
    ensures steps > 0 && current !in c2i ==> r == Err(UnknownSymbol(current))
    ensures r.Ok? ==> |r.value| <= steps
    decreases steps
  {
    if steps == 0 then Ok([])
    else
      var index :- IndexOf(c2i, current);
      var next :- SampleNext(index, m, i2c, draws[0]);
      if next == end then Ok([])
      else
        var rest :- Emit(next, end, c2i, i2c, m, steps - 1, draws[1..]);
        Ok([next] + rest)
  }

  /** A successful run emits at most `steps` symbols, none of them the end
      token; symbol `t` is the symbol of draw `t`; and a run that stops early
      stopped because the next draw was the end token. */
  lemma {:induction false} EmittedSymbols(current: Symbol, end: Symbol, c2i: SymbolToIndex, i2c: IndexToSymbol,
                                          m: Matrix, steps: nat, draws: seq<int>)
    requires |draws| >= steps
    ensures var r := Emit(current, end, c2i, i2c, m, steps, draws);
      r.Ok? ==>
        && |r.value| <= steps
        && (forall t :: 0 <= t < |r.value| ==> r.value[t] != end)
        && (forall t :: 0 <= t < |r.value| ==> draws[t] in i2c && r.value[t] == i2c[draws[t]])
        && (|r.value| < steps ==> draws[|r.value|] in i2c && i2c[draws[|r.value|]] == end)
    decreases steps
  {
    if steps > 0 && current in c2i {
      var next := SampleNext(c2i[current], m, i2c, draws[0]);
      if next.Ok? && next.value != end {
        EmittedSymbols(next.value, end, c2i, i2c, m, steps - 1, draws[1..]);
      }
    }
  }

  /** A successful run only looked up symbols that are keys and whose index
      selects a row of the matrix: the current symbol, and every emitted
      symbol that a later iteration went on from. */
  lemma {:induction false} EmitSucceedsOnlyOnKnownSymbols(current: Symbol, end: Symbol, c2i: SymbolToIndex,
                                                          i2c: IndexToSymbol, m: Matrix, steps: nat,
                                                          draws: seq<int>)
    requires |draws| >= steps
    ensures var r := Emit(current, end, c2i, i2c, m, steps, draws);
      r.Ok? && steps > 0 ==>
        && current in c2i && -|m| <= c2i[current] < |m|
        && (forall t :: 0 <= t < |r.value| && t + 1 < steps ==>
              r.value[t] in c2i && -|m| <= c2i[r.value[t]] < |m|)
    decreases steps
  {
    if steps > 0 && current in c2i {
      var next := SampleNext(c2i[current], m, i2c, draws[0]);
      if next.Ok? && next.value != end {
        EmitSucceedsOnlyOnKnownSymbols(next.value, end, c2i, i2c, m, steps - 1, draws[1..]);
      }
    }
  }

  /** The string built by appending symbols one after the other. */
  function Concat(symbols: seq<Symbol>): string
    decreases |symbols|
  {
    if |symbols| == 0 then "" else Concat(symbols[..|symbols| - 1]) + symbols[|symbols| - 1]
  }

  /** `generate_name(start, end, char_to_idx, idx_to_char, m, max_length)`
      with the draws supplied by the oracle. */
  function Generate(start: Symbol, end: Symbol, c2i: SymbolToIndex, i2c: IndexToSymbol, m: Matrix,
                    maxLength: int, draws: seq<int>): (r: Result<string>)
    requires |draws| >= Steps(maxLength)
    ensures maxLength <= 0 ==> r == Ok("")
    ensures maxLength > 0 && start !in c2i ==> r == Err(UnknownSymbol(start))
  {
    var symbols :- Emit(start, end, c2i, i2c, m, Steps(maxLength), draws);
    Ok(Concat(symbols))
  }

  /** Every symbol is one character. */
  predicate SingleCharacters(i2c: IndexToSymbol) {
    forall i :: i in i2c ==> |i2c[i]| == 1
  }

  lemma {:induction false} ConcatOfCharacters(symbols: seq<Symbol>)
    requires forall t :: 0 <= t < |symbols| ==> |symbols[t]| == 1
    ensures |Concat(symbols)| == |symbols|
    ensures forall t :: 0 <= t < |symbols| ==> Concat(symbols)[t] == symbols[t][0]
    decreases |symbols|
  {
    if |symbols| > 0 {
      ConcatOfCharacters(symbols[..|symbols| - 1]);
    }
  }

  /** With one-character symbols the generated name has at most
      `max_length` characters, each the symbol of the corresponding draw,
      and never contains the (one-character) end token. */
  lemma GeneratedNameBounded(start: Symbol, end: char, c2i: SymbolToIndex, i2c: IndexToSymbol, m: Matrix,
                             maxLength: int, draws: seq<int>)
    requires |draws| >= Steps(maxLength)
    requires SingleCharacters(i2c)
    ensures var r := Generate(start, [end], c2i, i2c, m, maxLength, draws);
      r.Ok? ==>
        && |r.value| <= Steps(maxLength)
        && (forall t :: 0 <= t < |r.value| ==> draws[t] in i2c && i2c[draws[t]] == [r.value[t]])
        && end !in r.value
  {
    var e := Emit(start, [end], c2i, i2c, m, Steps(maxLength), draws);
    EmittedSymbols(start, [end], c2i, i2c, m, Steps(maxLength), draws);
    if e.Ok? {
      var symbols := e.value;
      EmittedCharacters(symbols, i2c, draws);
      ConcatOfCharacters(symbols);
      var name := Concat(symbols);
      forall t | 0 <= t < |name|
        ensures i2c[draws[t]] == [name[t]] && name[t] != end
      {
        assert |symbols[t]| == 1;
        assert symbols[t] == [symbols[t][0]];
      }
    }
  }

  lemma EmittedCharacters(symbols: seq<Symbol>, i2c: IndexToSymbol, draws: seq<int>)
    requires SingleCharacters(i2c)
    requires |draws| >= |symbols|
    requires forall t :: 0 <= t < |symbols| ==> draws[t] in i2c && symbols[t] == i2c[draws[t]]
    ensures forall t :: 0 <= t < |symbols| ==> |symbols[t]| == 1
  {
    forall t | 0 <= t < |symbols|
      ensures |symbols[t]| == 1
    {
      var d := draws[t];
      assert d in i2c;
      assert |i2c[d]| == 1;
    }
  }

  /** With a consistent vocabulary whose indices cover the matrix, a known
      start token and draws that are indices of the matrix, generation never
      fails. */
  lemma {:induction false} EmitNeverFails(current: Symbol, end: Symbol, c2i: SymbolToIndex, i2c: IndexToSymbol,
                                          m: Matrix, steps: nat, draws: seq<int>)
    requires |draws| >= steps
    requires Consistent(c2i, i2c, |m|)
    requires current in c2i
    requires forall t :: 0 <= t < steps ==> 0 <= draws[t] < |m|
    ensures Emit(current, end, c2i, i2c, m, steps, draws).Ok?
    decreases steps
  {
    if steps > 0 {
      var index := c2i[current];
      assert -|m| <= index < |m|;
      var next := i2c[draws[0]];
      if next != end {
        EmitNeverFails(next, end, c2i, i2c, m, steps - 1, draws[1..]);
      }
    }
  }

  lemma GenerationNeverFails(start: Symbol, end: Symbol, c2i: SymbolToIndex, i2c: IndexToSymbol, m: Matrix,
                             maxLength: int, draws: seq<int>)
    requires |draws| >= Steps(maxLength)
    requires Consistent(c2i, i2c, |m|)
    requires start in c2i
    requires forall t :: 0 <= t < Steps(maxLength) ==> 0 <= draws[t] < |m|
    ensures Generate(start, end, c2i, i2c, m, maxLength, draws).Ok?
  {
    EmitNeverFails(start, end, c2i, i2c, m, Steps(maxLength), draws);
  }

  /** The generator loop as the code writes it: `for _ in range(max_length)`,
      looking up the current symbol, sampling the next one, leaving the loop
      on the end token and appending otherwise. It computes `Generate`. */
  method GenerateName(start: Symbol, end: Symbol, c2i: SymbolToIndex, i2c: IndexToSymbol, m: Matrix,
                      maxLength: int, draws: seq<int>) returns (r: Result<string>)
    requires |draws| >= Steps(maxLength)
    ensures r == Generate(start, end, c2i, i2c, m, maxLength, draws)
  {
    var steps := Steps(maxLength);
    ghost var whole := Emit(start, end, c2i, i2c, m, steps, draws);
    GenerateIsEmit(start, end, c2i, i2c, m, maxLength, draws);
    var current := start;
    var name := "";
    ghost var emitted: seq<Symbol> := [];
    var i := 0;
    assert draws[0..] == draws;
    PrefixedNothing(whole);
    while i < steps
      invariant 0 <= i <= steps
      invariant name == Concat(emitted)
      invariant whole == Prefixed(emitted, Emit(current, end, c2i, i2c, m, steps - i, draws[i..]))
    {
      ghost var rest := draws[i..];
      assert rest[0] == draws[i] && rest[1..] == draws[i + 1..];
      if current !in c2i {
        StepFails(whole, emitted, current, end, c2i, i2c, m, steps - i, rest);
        r := Err(UnknownSymbol(current));
        return;
      }
      var index := c2i[current];
      var next := SampleNext(index, m, i2c, draws[i]);
      if next.Err? {
        StepFails(whole, emitted, current, end, c2i, i2c, m, steps - i, rest);
        r := Err(next.error);
        return;
      }
      if next.value == end {
        StepStops(whole, emitted, current, end, c2i, i2c, m, steps - i, rest);
        break;
      }
      assert SampleNext(c2i[current], m, i2c, rest[0]) == next;
      StepAppends(whole, emitted, current, end, c2i, i2c, m, steps - i, rest);
      ghost var tail := Emit(next.value, end, c2i, i2c, m, steps - (i + 1), draws[i + 1..]);
      assert whole == Prefixed(emitted + [next.value], tail);
      current := next.value;
      assert Concat(emitted + [current]) == Concat(emitted) + current by {
        assert (emitted + [current])[..|emitted|] == emitted;
      }
      name := name + current;
      emitted := emitted + [current];
      i := i + 1;
    }
    if i == steps {
      PrefixedNothing(Ok(emitted));
    }
    r := Ok(name);
  }

  /** `Generate` in terms of the symbols `Emit` produces. */
  lemma GenerateIsEmit(start: Symbol, end: Symbol, c2i: SymbolToIndex, i2c: IndexToSymbol, m: Matrix,
                       maxLength: int, draws: seq<int>)
    requires |draws| >= Steps(maxLength)
    ensures var e := Emit(start, end, c2i, i2c, m, Steps(maxLength), draws);
      Generate(start, end, c2i, i2c, m, maxLength, draws) == if e.Ok? then Ok(Concat(e.value)) else Err(e.error)
  {
  }

  /** A step of the generator loop that raises: the whole generation fails
      with that step's error. */
  lemma StepFails(whole: Result<seq<Symbol>>, emitted: seq<Symbol>, current: Symbol, end: Symbol,
                  c2i: SymbolToIndex, i2c: IndexToSymbol, m: Matrix, steps: nat, draws: seq<int>)
    requires 0 < steps <= |draws|
    requires whole == Prefixed(emitted, Emit(current, end, c2i, i2c, m, steps, draws))
    ensures current !in c2i ==> whole == Err(UnknownSymbol(current))
    ensures current in c2i && SampleNext(c2i[current], m, i2c, draws[0]).Err? ==>
      whole == Err(SampleNext(c2i[current], m, i2c, draws[0]).error)
  {
  }

  /** A step of the generator loop that draws the end token: generation
      ends with the symbols emitted so far. */
  lemma StepStops(whole: Result<seq<Symbol>>, emitted: seq<Symbol>, current: Symbol, end: Symbol,
                  c2i: SymbolToIndex, i2c: IndexToSymbol, m: Matrix, steps: nat, draws: seq<int>)
    requires 0 < steps <= |draws|
    requires whole == Prefixed(emitted, Emit(current, end, c2i, i2c, m, steps, draws))
    requires current in c2i && SampleNext(c2i[current], m, i2c, draws[0]) == Ok(end)
    ensures whole == Ok(emitted)
  {
    assert Emit(current, end, c2i, i2c, m, steps, draws) == Ok([]);
    PrefixedNothing(Ok(emitted));
  }

  /** A step of the generator loop that draws another symbol: it is appended
      and generation goes on from it. */
  lemma StepAppends(whole: Result<seq<Symbol>>, emitted: seq<Symbol>, current: Symbol, end: Symbol,
                    c2i: SymbolToIndex, i2c: IndexToSymbol, m: Matrix, steps: nat, draws: seq<int>)
    requires 0 < steps <= |draws|
    requires whole == Prefixed(emitted, Emit(current, end, c2i, i2c, m, steps, draws))
    requires current in c2i && SampleNext(c2i[current], m, i2c, draws[0]).Ok?
    requires SampleNext(c2i[current], m, i2c, draws[0]).value != end
    ensures var next := SampleNext(c2i[current], m, i2c, draws[0]).value;
      whole == Prefixed(emitted + [next], Emit(next, end, c2i, i2c, m, steps - 1, draws[1..]))
  {
    var next := SampleNext(c2i[current], m, i2c, draws[0]).value;
    PrefixedAppend(emitted, next, Emit(next, end, c2i, i2c, m, steps - 1, draws[1..]));
  }

  lemma PrefixedNothing(rest: Result<seq<Symbol>>)
    ensures Prefixed([], rest) == rest
    ensures rest.Ok? ==> Prefixed(rest.value, Ok([])) == rest
  {
    if rest.Ok? {
      assert [] + rest.value == rest.value;
      assert rest.value + [] == rest.value;
    }
  }

  /** `rest` with `emitted` placed in front of a successful result. */
  function Prefixed(emitted: seq<Symbol>, rest: Result<seq<Symbol>>): Result<seq<Symbol>> {
    if rest.Ok? then Ok(emitted + rest.value) else rest
  }

  lemma PrefixedAppend(emitted: seq<Symbol>, next: Symbol, rest: Result<seq<Symbol>>)
    ensures Prefixed(emitted, if rest.Ok? then Ok([next] + rest.value) else rest)
         == Prefixed(emitted + [next], rest)
  {
    if rest.Ok? {
      assert emitted + ([next] + rest.value) == (emitted + [next]) + rest.value;
    }
  }
}

=== FILE: matrices.dfy ===
/** Exact real arithmetic over rows and matrices (a row-major `seq<seq<real>>`
    stands for a 2-D float tensor), and tensor indexing with Python's
    negative-index convention. */
module Matrices {
  import opened Results

  type Row = seq<real>
  type Matrix = seq<Row>

  /** The sum of a row, accumulated from the left. */
  function Sum(xs: Row): real
    decreases |xs|
  {
    if |xs| == 0 then 0.0 else Sum(xs[..|xs| - 1]) + xs[|xs| - 1]
  }

  lemma SumSingle(x: real)
    ensures Sum([x]) == x
  {
    assert [x][..0] == [];
  }

  /** The product of a row, accumulated from the left. */
  function Product(xs: Row): real
    decreases |xs|
  {
    if |xs| == 0 then 1.0 else Product(xs[..|xs| - 1]) * xs[|xs| - 1]
  }

  /** `f` applied to every entry of a row. */
  function MapRow(xs: Row, f: real -> real): (r: Row)
    ensures |r| == |xs|
  {
    seq(|xs|, j requires 0 <= j < |xs| => f(xs[j]))
  }

  /** Every entry of the matrix lies in the half-open interval (0, 1]. */
  predicate PositiveProbabilities(m: Matrix) {
    forall i, j :: 0 <= i < |m| && 0 <= j < |m[i]| ==> 0.0 < m[i][j] <= 1.0
  }

  /** Python reads a negative index `i` as `n + i`. */
  function Wrap(i: int, n: nat): int {
    if i < 0 then i + n else i
  }

  /** `m[i]` on a tensor: valid for `-|m| <= i < |m|`, an IndexError otherwise. */
  function RowAt(m: Matrix, i: int): (r: Result<Row>)
    ensures r.Ok? <==> -|m| <= i < |m|
    ensures r.Ok? ==> r.value in m
    ensures 0 <= i < |m| ==> r == Ok(m[i])
    ensures -|m| <= i < 0 ==> r == Ok(m[|m| + i])
    ensures !(-|m| <= i < |m|) ==> r == Err(IndexOutOfRange(i))
  {
    if -|m| <= i < |m| then Ok(m[Wrap(i, |m|)]) else Err(IndexOutOfRange(i))
  }

  /** `m[j, k]` on a tensor: the row is selected first, then the column. */
  function CellAt(m: Matrix, j: int, k: int): (r: Result<real>)
    ensures r.Ok? ==> exists a, b :: 0 <= a < |m| && 0 <= b < |m[a]| && r.value == m[a][b]
    ensures 0 <= j < |m| && 0 <= k < |m[j]| ==> r == Ok(m[j][k])
    ensures !(-|m| <= j < |m|) ==> r == Err(IndexOutOfRange(j))
    ensures -|m| <= j < |m| && !(-|m[Wrap(j, |m|)]| <= k < |m[Wrap(j, |m|)]|) ==> r == Err(IndexOutOfRange(k))
    ensures -|m| <= j < |m| && -|m[Wrap(j, |m|)]| <= k < |m[Wrap(j, |m|)]| ==>
      r == Ok(m[Wrap(j, |m|)][Wrap(k, |m[Wrap(j, |m|)]|)])
  {
    var row :- RowAt(m, j);
    if -|row| <= k < |row| then
      assert row == m[Wrap(j, |m|)];
      Ok(row[Wrap(k, |row|)])
    else Err(IndexOutOfRange(k))
  }

  lemma SumMapAppend(xs: Row, x: real, f: real -> real)
    ensures Sum(MapRow(xs + [x], f)) == Sum(MapRow(xs, f)) + f(x)
  {
    assert MapRow(xs + [x], f)[..|xs|] == MapRow(xs, f);
  }

  lemma {:induction false} SumScaled(xs: Row, ys: Row, d: real)
    requires d != 0.0 && |ys| == |xs|
    requires forall j :: 0 <= j < |xs| ==> ys[j] == xs[j] / d
    ensures Sum(ys) == Sum(xs) / d
    decreases |xs|
  {
    if |xs| > 0 {
      var n := |xs| - 1;
      SumScaled(xs[..n], ys[..n], d);
      assert Sum(ys) == Sum(xs[..n]) / d + xs[n] / d;
    }
  }

  lemma {:induction false} SumShifted(xs: Row, ys: Row, s: real)
    requires |ys| == |xs|
    requires forall j :: 0 <= j < |xs| ==> ys[j] == xs[j] + s
    ensures Sum(ys) == Sum(xs) + (|xs| as real) * s
    decreases |xs|
  {
    if |xs| > 0 {
      var n := |xs| - 1;
      SumShifted(xs[..n], ys[..n], s);
    }
  }

  lemma {:induction false} SumNonNegative(xs: Row)
    requires forall j :: 0 <= j < |xs| ==> xs[j] >= 0.0
    ensures Sum(xs) >= 0.0
    decreases |xs|
  {
    if |xs| > 0 {
      SumNonNegative(xs[..|xs| - 1]);
    }
  }

  lemma {:induction false} SumNonPositive(xs: Row)
    requires forall j :: 0 <= j < |xs| ==> xs[j] <= 0.0
    ensures Sum(xs) <= 0.0
    decreases |xs|
  {
    if |xs| > 0 {
      SumNonPositive(xs[..|xs| - 1]);
    }
  }

  lemma {:induction false} EntryAtMostSum(xs: Row, j: int)
    requires forall i :: 0 <= i < |xs| ==> xs[i] >= 0.0
    requires 0 <= j < |xs|
    ensures xs[j] <= Sum(xs)
    decreases |xs|
  {
    var n := |xs| - 1;
    if j < n {
      EntryAtMostSum(xs[..n], j);
    } else {
      SumNonNegative(xs[..n]);
    }
  }

  lemma {:induction false} ProductInUnitInterval(xs: Row)
    requires forall j :: 0 <= j < |xs| ==> 0.0 <= xs[j] <= 1.0
    ensures 0.0 <= Product(xs) <= 1.0
    decreases |xs|
  {
    if |xs| > 0 {
      var n := |xs| - 1;
      ProductInUnitInterval(xs[..n]);
      var p := Product(xs[..n]);
      assert Product(xs) == p * xs[n];
      assert 0.0 <= p * xs[n] by {
        assert 0.0 <= p && 0.0 <= xs[n];
      }
      assert p * xs[n] <= p * 1.0 by {
        assert 0.0 <= p && xs[n] <= 1.0;
      }
    }
  }
}

=== FILE: probabilities.dfy ===
/** The probability builder (`bigrams_count_to_probabilities`): additive
    (Laplace) smoothing of a count matrix followed by row normalisation. */
module Probabilities {
  import opened Matrices

  /** A row of counts with the smoothing constant added to every cell. */
  function SmoothRow(row: Row, s: real): Row {
    seq(|row|, j requires 0 <= j < |row| => row[j] + s)
  }

  /** The denominator the code divides row `row` by. */
  function SmoothedTotal(row: Row, s: real): real {
    Sum(SmoothRow(row, s))
  }

  /** Every non-empty row has a non-zero smoothed total. A zero total makes
      the division produce NaN, so the model asks callers to exclude it. */
  predicate Normalisable(counts: Matrix, s: real) {
    forall i :: 0 <= i < |counts| && |counts[i]| > 0 ==> SmoothedTotal(counts[i], s) != 0.0
  }

  predicate NonNegative(counts: Matrix) {
    forall i, j :: 0 <= i < |counts| && 0 <= j < |counts[i]| ==> counts[i][j] >= 0.0
  }

  /** One normalised row: each smoothed count over the smoothed total
      (`RowSumsToOne` states that a non-empty row sums to one). */
  function NormaliseRow(row: Row, s: real): (r: Row)
    requires |row| > 0 ==> SmoothedTotal(row, s) != 0.0
    ensures |r| == |row|
  {
    var d := SmoothedTotal(row, s);
    seq(|row|, j requires 0 <= j < |row| => (row[j] + s) / d)
  }

  /** `bigrams_count_to_probabilities(counts, s)`. */
  function Normalise(counts: Matrix, s: real): (r: Matrix)
    requires Normalisable(counts, s)
    ensures |r| == |counts|
    ensures forall i :: 0 <= i < |counts| ==> |r[i]| == |counts[i]|
    ensures forall i, j :: 0 <= i < |counts| && 0 <= j < |counts[i]| ==>
      r[i][j] * SmoothedTotal(counts[i], s) == counts[i][j] + s
  {
    seq(|counts|, i requires 0 <= i < |counts| => NormaliseRow(counts[i], s))
  }

  /** The smoothed total is the raw total plus one smoothing constant per cell. */
  lemma {:induction false} SmoothedTotalIsShifted(row: Row, s: real)
    ensures SmoothedTotal(row, s) == Sum(row) + (|row| as real) * s
  {
    SumShifted(row, SmoothRow(row, s), s);
  }

  /** Every non-empty row of the result sums to exactly one. */
  lemma {:induction false} RowsSumToOne(counts: Matrix, s: real)
    requires Normalisable(counts, s)
    ensures forall i :: 0 <= i < |counts| && |counts[i]| > 0 ==> Sum(Normalise(counts, s)[i]) == 1.0
  {
    var r := Normalise(counts, s);
    forall i | 0 <= i < |counts| && |counts[i]| > 0
      ensures Sum(r[i]) == 1.0
    {
      assert r[i] == NormaliseRow(counts[i], s);
      RowSumsToOne(counts[i], s);
    }
  }

  /** One non-empty normalised row sums to exactly one. */
  lemma {:induction false} RowSumsToOne(row: Row, s: real)
    requires |row| > 0 && SmoothedTotal(row, s) != 0.0
    ensures Sum(NormaliseRow(row, s)) == 1.0
  {
    ScaledRowSumsToOne(row, s, NormaliseRow(row, s));
  }

  /** Smoothed counts divided by their total sum to one. */
  lemma {:induction false} ScaledRowSumsToOne(row: Row, s: real, r: Row)
    requires |row| > 0 && SmoothedTotal(row, s) != 0.0 && |r| == |row|
    requires forall j :: 0 <= j < |row| ==> r[j] == (row[j] + s) / SmoothedTotal(row, s)
    ensures Sum(r) == 1.0
  {
    var smoothed := SmoothRow(row, s);
    var d := SmoothedTotal(row, s);
    assert Sum(smoothed) == d;
    assert Sum(r) == d / d by {
      assert forall j :: 0 <= j < |smoothed| ==> r[j] == smoothed[j] / d;
      SumScaled(smoothed, r, d);
    }
    DivideBySelf(d);
  }

  lemma DivideBySelf(d: real)
    requires d != 0.0
    ensures d / d == 1.0
  {
  }

  /** With non-negative counts and smoothing, every entry is a probability. */
  lemma {:induction false} EntriesAreProbabilities(counts: Matrix, s: real)
    requires NonNegative(counts) && s >= 0.0
    requires Normalisable(counts, s)
    ensures forall i, j :: 0 <= i < |counts| && 0 <= j < |counts[i]| ==>
      0.0 <= Normalise(counts, s)[i][j] <= 1.0
  {
    var r := Normalise(counts, s);
    forall i, j | 0 <= i < |counts| && 0 <= j < |counts[i]|
      ensures 0.0 <= r[i][j] <= 1.0
    {
      var smoothed := SmoothRow(counts[i], s);
      var d := SmoothedTotal(counts[i], s);
      EntryAtMostSum(smoothed, j);
      assert r[i][j] == smoothed[j] / d;
      FractionInUnitInterval(smoothed[j], d, r[i][j]);
    }
  }

  /** With a strictly positive smoothing constant and non-negative counts,
      no row total can be zero and every entry is strictly positive: the
      result is a matrix of positive probabilities. */
  lemma {:induction false} SmoothingMakesPositive(counts: Matrix, s: real)
    requires NonNegative(counts) && s > 0.0
    ensures Normalisable(counts, s)
    ensures PositiveProbabilities(Normalise(counts, s))
  {
    forall i | 0 <= i < |counts| && |counts[i]| > 0
      ensures SmoothedTotal(counts[i], s) > 0.0
    {
      var smoothed := SmoothRow(counts[i], s);
      EntryAtMostSum(smoothed, 0);
    }
    EntriesAreProbabilities(counts, s);
    var r := Normalise(counts, s);
    forall i, j | 0 <= i < |r| && 0 <= j < |r[i]|
      ensures 0.0 < r[i][j]
    {
      var smoothed := SmoothRow(counts[i], s);
      assert r[i][j] == smoothed[j] / SmoothedTotal(counts[i], s);
      PositiveFraction(smoothed[j], SmoothedTotal(counts[i], s), r[i][j]);
    }
  }

  lemma FractionInUnitInterval(a: real, d: real, q: real)
    requires 0.0 <= a <= d && d != 0.0 && q == a / d
    ensures 0.0 <= q <= 1.0
  {
  }

  lemma PositiveFraction(a: real, d: real, q: real)
    requires 0.0 < a && 0.0 < d && q == a / d
    ensures 0.0 < q
  {
  }

  /** A symbol never observed as a predecessor gets the uniform distribution
      once smoothed. */
  lemma {:induction false} UnseenRowIsUniform(row: Row, s: real, j: int)
    requires s != 0.0 && 0 <= j < |row|
    requires forall k :: 0 <= k < |row| ==> row[k] == 0.0
    ensures SmoothedTotal(row, s) != 0.0
    ensures NormaliseRow(row, s)[j] == 1.0 / (|row| as real)
  {
    SmoothedTotalIsShifted(row, s);
    SumNonNegative(row);
    SumNonPositive(row);
    var n := |row| as real;
    assert SmoothedTotal(row, s) == n * s;
  }

  /** A row with counts 0, 0, 3 and 1 smoothed by one becomes
      1/8, 1/8, 4/8 and 2/8. */
  lemma SmoothedRowExample()
    ensures SmoothedTotal([0.0, 0.0, 3.0, 1.0], 1.0) == 8.0
    ensures NormaliseRow([0.0, 0.0, 3.0, 1.0], 1.0) == [0.125, 0.125, 0.5, 0.25]
  {
    var row := [0.0, 0.0, 3.0, 1.0];
    var a, b, c := [0.0], [0.0, 0.0], [0.0, 0.0, 3.0];
    assert a[..0] == [] && Sum(a) == 0.0;
    assert b[..1] == a && Sum(b) == 0.0;
    assert c[..2] == b && Sum(c) == 3.0;
    assert row[..3] == c && Sum(row) == 4.0;
    SmoothedTotalIsShifted(row, 1.0);
    var r := NormaliseRow(row, 1.0);
    assert r[0] == 0.125 && r[1] == 0.125 && r[2] == 0.5 && r[3] == 0.25;
  }

  /** Raising the smoothing constant of a row of non-negative counts keeps
      its total non-zero, so the row stays normalisable. */
  lemma {:induction false} LargerSmoothingKeepsTotal(row: Row, s: real, s': real)
    requires forall k :: 0 <= k < |row| ==> row[k] >= 0.0
    requires |row| > 0
    requires 0.0 <= s <= s' && SmoothedTotal(row, s) != 0.0
    ensures 0.0 < SmoothedTotal(row, s) <= SmoothedTotal(row, s')
  {
    SumNonNegative(row);
    SmoothedTotalIsShifted(row, s);
    SmoothedTotalIsShifted(row, s');
    TotalsGrow(Sum(row), |row| as real, s, s', SmoothedTotal(row, s), SmoothedTotal(row, s'));
  }

  /** Raising the smoothing constant moves every entry of a row towards the
      uniform value 1/n, never away from it. The second total being non-zero
      follows from the other requirements (`LargerSmoothingKeepsTotal`). */
  lemma {:induction false} SmoothingTowardsUniform(row: Row, s: real, s': real, j: int)
    requires forall k :: 0 <= k < |row| ==> row[k] >= 0.0
    requires 0 <= j < |row|
    requires 0.0 <= s <= s' && SmoothedTotal(row, s) != 0.0 && SmoothedTotal(row, s') != 0.0
    ensures Abs(NormaliseRow(row, s')[j] - 1.0 / (|row| as real))
         <= Abs(NormaliseRow(row, s)[j] - 1.0 / (|row| as real))
  {
    EntryMovesTowardsUniform(row, s, s', j, NormaliseRow(row, s)[j], NormaliseRow(row, s')[j],
                             SmoothedTotal(row, s), SmoothedTotal(row, s'));
  }

  /** `SmoothingTowardsUniform` with the two entries and the two totals
      named, so that the arithmetic below sees them as plain reals. */
  lemma {:induction false} EntryMovesTowardsUniform(row: Row, s: real, s': real, j: int, p: real, p': real,
                                                    d: real, d': real)
    requires forall k :: 0 <= k < |row| ==> row[k] >= 0.0
    requires 0 <= j < |row|
    requires 0.0 <= s <= s' && SmoothedTotal(row, s) == d != 0.0 && SmoothedTotal(row, s') == d' != 0.0
    requires p == NormaliseRow(row, s)[j] && p' == NormaliseRow(row, s')[j]
    ensures Abs(p' - 1.0 / (|row| as real)) <= Abs(p - 1.0 / (|row| as real))
  {
    SumNonNegative(row);
    SmoothedTotalIsShifted(row, s);
    SmoothedTotalIsShifted(row, s');
    EntryOverTotal(row, s, j, d);
    EntryOverTotal(row, s', j, d');
    FractionTowardsUniform(row[j], Sum(row), |row| as real, s, s', d, d', p, p');
  }

  /** The arithmetic core: (x + s) / (c + n s) is no further from 1/n
      than it was once s grows. */
  lemma FractionTowardsUniform(x: real, c: real, n: real, s: real, s': real,
                               d: real, d': real, p: real, p': real)
    requires n > 0.0 && c >= 0.0 && 0.0 <= s <= s'
    requires d == c + n * s && d' == c + n * s' && d != 0.0 && d' != 0.0
    requires p == (x + s) / d && p' == (x + s') / d'
    ensures Abs(p' - 1.0 / n) <= Abs(p - 1.0 / n)
  {
    Deviation(x, s, c, n, d, p);
    Deviation(x, s', c, n, d', p');
    TotalsGrow(c, n, s, s', d, d');
    ScaleKeepsOrder(n, d, d');
    ShrinkingFraction(n * x - c, n * d, n * d', p - 1.0 / n, p' - 1.0 / n);
  }

  lemma {:induction false} EntryOverTotal(row: Row, s: real, j: int, d: real)
    requires 0 <= j < |row|
    requires SmoothedTotal(row, s) == d != 0.0
    ensures NormaliseRow(row, s)[j] == (row[j] + s) / d
  {
  }

  function Abs(x: real): real {
    if x < 0.0 then -x else x
  }

  lemma TotalsGrow(c: real, n: real, s: real, s': real, d: real, d': real)
    requires n > 0.0 && c >= 0.0 && 0.0 <= s <= s'
    requires d == c + n * s && d' == c + n * s' && d != 0.0
    ensures 0.0 < d <= d'
  {
    assert 0.0 <= n * s <= n * s';
  }

  lemma Deviation(x: real, s: real, c: real, n: real, d: real, p: real)
    requires n > 0.0 && d == c + n * s && d != 0.0 && p == (x + s) / d
    ensures p - 1.0 / n == (n * x - c) / (n * d)
  {
    assert (x + s) / d == (n * (x + s)) / (n * d);
    assert 1.0 / n == d / (n * d);
    assert n * (x + s) - d == n * x - c;
  }

  lemma ScaleKeepsOrder(n: real, d: real, d': real)
    requires n > 0.0 && 0.0 < d <= d'
    ensures 0.0 < n * d <= n * d'
  {
  }

  lemma ShrinkingFraction(a: real, e: real, e': real, q: real, q': real)
    requires 0.0 < e <= e' && q == a / e && q' == a / e'
    ensures Abs(q') <= Abs(q)
  {
    assert q - q' == a * (e' - e) / (e * e');
    assert e * e' > 0.0;
    if a >= 0.0 {
      assert a * (e' - e) >= 0.0;
    } else {
      assert a * (e' - e) <= 0.0;
    }
  }
}

=== FILE: results.dfy ===
/** Failure-compatible results for the bigram model, and a traversal that
    applies a fallible step to every element of a sequence, stopping at the
    first failure the way a Python `for` loop stops at the first exception. */
module Results {

  /** The exceptions the modelled code can raise. */
  datatype Error =
    | UnknownSymbol(symbol: string)   // KeyError on a symbol -> index dictionary
    | UnknownIndex(index: int)        // KeyError on an index -> symbol dictionary
    | IndexOutOfRange(index: int)     // IndexError when indexing a tensor
    | DivisionByZero                  // ZeroDivisionError

  datatype Result<+T> = Ok(value: T) | Err(error: Error) {

    predicate IsFailure() {
      Err?
    }

    function PropagateFailure<U>(): Result<U>
      requires Err?
    {
      Err(error)
    }

    function Extract(): T
      requires Ok?
    {
      value
    }
  }

  /** Applies `f` to every element of `xs` in order. The result collects every
      value when all steps succeed, and is otherwise the error of the first
      step that fails. */
  function Traverse<A, B>(xs: seq<A>, f: A -> Result<B>): (r: Result<seq<B>>)
    ensures r.Ok? <==> (forall t :: 0 <= t < |xs| ==> f(xs[t]).Ok?)
    ensures r.Ok? ==> |r.value| == |xs|
    ensures r.Ok? ==> forall t :: 0 <= t < |xs| ==> r.value[t] == f(xs[t]).value
    ensures r.Err? ==> exists t :: 0 <= t < |xs| && FirstFailure(xs, f, t) && r.error == f(xs[t]).error
    decreases |xs|
  {
    if |xs| == 0 then Ok([])
    else
      var init := xs[..|xs| - 1];
      var last := |xs| - 1;
      match Traverse(init, f)
      case Err(e) =>
        assert forall t :: 0 <= t < |init| ==> init[t] == xs[t];
        Err(e)
      case Ok(prefix) =>
        match f(xs[last])
        case Err(e) =>
          assert forall t :: 0 <= t < |init| ==> init[t] == xs[t];
          assert FirstFailure(xs, f, last);
          Err(e)
        case Ok(y) =>
          assert forall t :: 0 <= t < |init| ==> init[t] == xs[t];
          Ok(prefix + [y])
  }

  /** Step `t` is the first step of the traversal that fails. */
  predicate FirstFailure<A, B>(xs: seq<A>, f: A -> Result<B>, t: int)
    requires 0 <= t < |xs|
  {
    f(xs[t]).Err? && forall u :: 0 <= u < t ==> f(xs[u]).Ok?
  }

  /** Once a prefix of the traversal fails, the whole traversal fails with
      the same error: later elements are never visited. */
  lemma {:induction false} TraversePrefixFailure<A, B>(xs: seq<A>, f: A -> Result<B>, m: nat)
    requires m <= |xs|
    requires Traverse(xs[..m], f).Err?
    ensures Traverse(xs, f) == Traverse(xs[..m], f)
    decreases |xs| - m
  {
    if m < |xs| {
      var ys := xs[..m + 1];
      assert ys[..m] == xs[..m];
      assert Traverse(ys, f) == Traverse(xs[..m], f);
      TraversePrefixFailure(xs, f, m + 1);
    } else {
      assert xs[..m] == xs;
    }
  }

  /** A traversal fails with the error of the first failing step. */
  lemma TraverseFirstFailure<A, B>(xs: seq<A>, f: A -> Result<B>, t: int)
    requires 0 <= t < |xs| && FirstFailure(xs, f, t)
    ensures Traverse(xs, f) == Err(f(xs[t]).error)
  {
    var r := Traverse(xs, f);
    var u :| 0 <= u < |xs| && FirstFailure(xs, f, u) && r.error == f(xs[u]).error;
    if u != t {
      assert false;
    }
  }

  /** Traversing one element is applying the step to it. */
  lemma TraverseSingle<A, B>(x: A, f: A -> Result<B>)
    ensures Traverse([x], f) == if f(x).Ok? then Ok([f(x).value]) else Err(f(x).error)
  {
    if f(x).Err? {
      TraverseFirstFailure([x], f, 0);
    } else {
      var r := Traverse([x], f);
      assert r.value == [f(x).value];
    }
  }

  /** One more step of a traversal that has succeeded so far. */
  lemma TraverseStep<A, B>(xs: seq<A>, f: A -> Result<B>, i: int, done: seq<B>)
    requires 0 <= i < |xs| && Traverse(xs[..i], f) == Ok(done)
    ensures f(xs[i]).Ok? ==> Traverse(xs[..i + 1], f) == Ok(done + [f(xs[i]).value])
    ensures f(xs[i]).Err? ==> Traverse(xs, f) == Err(f(xs[i]).error)
  {
    assert xs[..i + 1][..i] == xs[..i];
    if f(xs[i]).Err? {
      TraversePrefixFailure(xs, f, i + 1);
    }
  }

  /** When every step succeeds with a known value, the traversal collects
      exactly those values, in order. */
  lemma TraverseCollects<A, B>(xs: seq<A>, f: A -> Result<B>, ys: seq<B>)
    requires |ys| == |xs|
    requires forall t :: 0 <= t < |xs| ==> f(xs[t]) == Ok(ys[t])
    ensures Traverse(xs, f) == Ok(ys)
  {
    var r := Traverse(xs, f);
    assert r.Ok?;
    assert r.value == ys;
  }
}

=== FILE: scoring.dfy ===
/** The sequence scorer: the log-likelihood of one word under the bigram
    matrix (`calculate_log_likelihood`) and the negative mean log-likelihood
    of a corpus (`calculate_neg_mean_log_likelihood`).

    The natural logarithm is a parameter `log`; the properties below assume
    only what they name about it (its sign on (0, 1], or that it turns
    products into sums). */
module Scoring {
  import opened Results
  import opened Matrices
  import opened Vocabulary

  // ---------------------------------------------------------------------------
  // The processed word and its bigram walk

  /** ASCII lower-casing of one character. */
  function LowerChar(c: char): char {
    if 'A' <= c <= 'Z' then (c as int + 32) as char else c
  }

  /** `word.lower()`, restricted to ASCII letters. */
  function Lower(word: string): (r: string)
    ensures |r| == |word|
    ensures forall i :: 0 <= i < |r| ==> !('A' <= r[i] <= 'Z')
    ensures forall i :: 0 <= i < |r| && !('A' <= word[i] <= 'Z') ==> r[i] == word[i]
    ensures forall i :: 0 <= i < |r| && 'A' <= word[i] <= 'Z' ==>
      'a' <= r[i] <= 'z' && r[i] as int - 'a' as int == word[i] as int - 'A' as int
  {
    seq(|word|, i requires 0 <= i < |word| => LowerChar(word[i]))
  }

  /** The string actually scored: start token, lower-cased word, end token. */
  function Processed(word: string, start: Symbol, end: Symbol): (r: string)
    ensures |r| == |start| + |word| + |end|
    ensures r[..|start|] == start && r[|start| + |word|..] == end
    ensures forall i :: 0 <= i < |word| ==> r[|start| + i] == LowerChar(word[i])
  {
    start + Lower(word) + end
  }

  /** The adjacent character pairs of `s`, in order: the walk the scoring
      loop performs with `i` running from 1 to `|s| - 1`. */
  function Bigrams(s: string): (r: seq<(char, char)>)
    ensures |r| == if |s| == 0 then 0 else |s| - 1
    ensures forall t :: 0 <= t < |r| ==> r[t] == (s[t], s[t + 1])
    decreases |s|
  {
    if |s| < 2 then []
    else Bigrams(s[..|s| - 1]) + [(s[|s| - 2], s[|s| - 1])]
  }

  /** With one-character tokens the walk has one pair per letter plus one:
      it starts at the start token, steps through the lower-cased letters,
      and ends at the end token. */
  lemma ScoredPairs(word: string, start: char, end: char)
    ensures var pairs := Bigrams(Processed(word, [start], [end]));
      && |pairs| == |word| + 1
      && pairs[0].0 == start
      && pairs[|word|].1 == end
      && (forall t :: 0 <= t < |word| ==> pairs[t].1 == Lower(word)[t] && pairs[t + 1].0 == Lower(word)[t])
  {
    var l := Lower(word);
    var s := Processed(word, [start], [end]);
    assert s == [start] + l + [end];
    var pairs := Bigrams(s);
    assert |s| == |word| + 2;
    assert s[0] == start && s[|word| + 1] == end;
    assert forall t :: 0 <= t < |word| ==> s[t + 1] == l[t];
    assert pairs[0] == (s[0], s[1]);
    assert pairs[|word|] == (s[|word|], s[|word| + 1]);
    forall t | 0 <= t < |word|
      ensures pairs[t].1 == l[t] && pairs[t + 1].0 == l[t]
    {
      assert pairs[t] == (s[t], s[t + 1]);
      assert pairs[t + 1] == (s[t + 1], s[t + 2]);
    }
  }

  // ---------------------------------------------------------------------------
  // Looking up one bigram

  /** One iteration of the scoring loop: the indices of both characters
      (each looked up as a one-character string), then the matrix cell. */
  function PairProbability(m: Matrix, c2i: SymbolToIndex, pair: (char, char)): (r: Result<real>)
    ensures r.Ok? ==> [pair.0] in c2i && [pair.1] in c2i
    ensures [pair.0] !in c2i ==> r == Err(UnknownSymbol([pair.0]))
    ensures [pair.0] in c2i && [pair.1] !in c2i ==> r == Err(UnknownSymbol([pair.1]))
    ensures r.Err? ==> r.error.UnknownSymbol? || r.error.IndexOutOfRange?
    ensures [pair.0] in c2i && [pair.1] in c2i && 0 <= c2i[[pair.0]] < |m| && 0 <= c2i[[pair.1]] < |m[c2i[[pair.0]]]| ==>
      r == Ok(m[c2i[[pair.0]]][c2i[[pair.1]]])
  {
    var j :- IndexOf(c2i, [pair.0]);
    var k :- IndexOf(c2i, [pair.1]);
    CellAt(m, j, k)
  }

  function PairStep(m: Matrix, c2i: SymbolToIndex): ((char, char)) -> Result<real> {
    pair => PairProbability(m, c2i, pair)
  }

  /** The probabilities of all pairs of a walk, or the first lookup error. */
  function PairProbabilities(m: Matrix, c2i: SymbolToIndex, pairs: seq<(char, char)>): Result<seq<real>> {
    Traverse(pairs, PairStep(m, c2i))
  }

  /** Every symbol index is a valid row and column of the square matrix. */
  predicate IndexesMatrix(c2i: SymbolToIndex, m: Matrix) {
    && (forall i :: 0 <= i < |m| ==> |m[i]| == |m|)
    && (forall sym :: sym in c2i ==> 0 <= c2i[sym] < |m|)
  }

  // ---------------------------------------------------------------------------
  // Scores of one word

  /** `calculate_log_likelihood`: the sum of `log` over the probabilities of
      the walk of the processed word. */
  function LogLikelihood(word: string, m: Matrix, c2i: SymbolToIndex, start: Symbol, end: Symbol,
                         log: real -> real): (r: Result<real>)
    ensures |Processed(word, start, end)| < 2 ==> r == Ok(0.0)
    ensures r.Err? ==> r.error.UnknownSymbol? || r.error.IndexOutOfRange?
  {
    var ps :- PairProbabilities(m, c2i, Bigrams(Processed(word, start, end)));
    Ok(Sum(MapRow(ps, log)))
  }

  /** The likelihood itself: the product of the same probabilities. */
  function Likelihood(word: string, m: Matrix, c2i: SymbolToIndex, start: Symbol, end: Symbol): Result<real> {
    var ps :- PairProbabilities(m, c2i, Bigrams(Processed(word, start, end)));
    Ok(Product(ps))
  }

  /** The only property of the logarithm the sign results use. */
  ghost predicate NonPositiveOnProbabilities(log: real -> real) {
    forall p :: 0.0 < p <= 1.0 ==> log(p) <= 0.0
  }

  /** The defining property of a logarithm on positive reals. */
  ghost predicate TurnsProductsIntoSums(log: real -> real) {
    forall a, b :: 0.0 < a && 0.0 < b ==> log(Times(a, b)) == log(a) + log(b)
  }

  /** Multiplication as a function, so that the quantifier of
      `TurnsProductsIntoSums` has a term to trigger on (`*` cannot be one). */
  function Times(a: real, b: real): real {
    a * b
  }

  /** Every probability found along a walk is an entry of the matrix. */
  lemma {:induction false} WalkProbabilitiesAreEntries(m: Matrix, c2i: SymbolToIndex, pairs: seq<(char, char)>)
    requires PositiveProbabilities(m)
    ensures PairProbabilities(m, c2i, pairs).Ok? ==>
      forall t :: 0 <= t < |pairs| ==> 0.0 < PairProbabilities(m, c2i, pairs).value[t] <= 1.0
  {
    var r := PairProbabilities(m, c2i, pairs);
    if r.Ok? {
      forall t | 0 <= t < |pairs|
        ensures 0.0 < r.value[t] <= 1.0
      {
        var cell := PairProbability(m, c2i, pairs[t]);
        assert PairStep(m, c2i)(pairs[t]) == cell;
        assert cell.Ok?;
        var j := c2i[[pairs[t].0]];
        var k := c2i[[pairs[t].1]];
        assert cell == CellAt(m, j, k);
        var a, b :| 0 <= a < |m| && 0 <= b < |m[a]| && cell.value == m[a][b];
      }
    }
  }

  /** Under a matrix of positive probabilities a word's log-likelihood is
      never positive. */
  lemma LogLikelihoodNonPositive(word: string, m: Matrix, c2i: SymbolToIndex, start: Symbol, end: Symbol,
                                 log: real -> real)
    requires PositiveProbabilities(m) && NonPositiveOnProbabilities(log)
    ensures LogLikelihood(word, m, c2i, start, end, log).Ok? ==>
      LogLikelihood(word, m, c2i, start, end, log).value <= 0.0
  {
    var pairs := Bigrams(Processed(word, start, end));
    var r := PairProbabilities(m, c2i, pairs);
    if r.Ok? {
      WalkProbabilitiesAreEntries(m, c2i, pairs);
      var logs := MapRow(r.value, log);
      assert forall t :: 0 <= t < |logs| ==> logs[t] == log(r.value[t]);
      SumNonPositive(logs);
    }
  }

  /** Under a matrix of positive probabilities a word's likelihood is a
      probability. */
  lemma LikelihoodIsProbability(word: string, m: Matrix, c2i: SymbolToIndex, start: Symbol, end: Symbol)
    requires PositiveProbabilities(m)
    ensures Likelihood(word, m, c2i, start, end).Ok? ==>
      0.0 <= Likelihood(word, m, c2i, start, end).value <= 1.0
  {
    var pairs := Bigrams(Processed(word, start, end));
    WalkProbabilitiesAreEntries(m, c2i, pairs);
    var r := PairProbabilities(m, c2i, pairs);
    if r.Ok? {
      ProductInUnitInterval(r.value);
    }
  }

  /** The log-likelihood is the logarithm of the likelihood: both fail on
      the same words, and summing logarithms of the pair probabilities is
      the logarithm of their product. */
  lemma LogLikelihoodIsLogOfLikelihood(word: string, m: Matrix, c2i: SymbolToIndex, start: Symbol, end: Symbol,
                                       log: real -> real)
    requires PositiveProbabilities(m) && TurnsProductsIntoSums(log)
    ensures LogLikelihood(word, m, c2i, start, end, log).Ok? <==> Likelihood(word, m, c2i, start, end).Ok?
    ensures LogLikelihood(word, m, c2i, start, end, log).Ok? ==>
      LogLikelihood(word, m, c2i, start, end, log).value == log(Likelihood(word, m, c2i, start, end).value)
  {
    var pairs := Bigrams(Processed(word, start, end));
    WalkProbabilitiesAreEntries(m, c2i, pairs);
    var r := PairProbabilities(m, c2i, pairs);
    if r.Ok? {
      SumOfLogsIsLogOfProduct(r.value, log);
    }
  }

  lemma {:induction false} SumOfLogsIsLogOfProduct(ps: Row, log: real -> real)
    requires TurnsProductsIntoSums(log)
    requires forall t :: 0 <= t < |ps| ==> 0.0 < ps[t]
    ensures Product(ps) > 0.0
    ensures Sum(MapRow(ps, log)) == log(Product(ps))
    decreases |ps|
  {
    if |ps| == 0 {
      assert Times(1.0, 1.0) == 1.0;
      assert log(Times(1.0, 1.0)) == log(1.0) + log(1.0);
    } else {
      var n := |ps| - 1;
      var init := ps[..n];
      SumOfLogsIsLogOfProduct(init, log);
      assert MapRow(ps, log)[..n] == MapRow(init, log);
      assert Product(ps) == Times(Product(init), ps[n]);
      assert log(Times(Product(init), ps[n])) == log(Product(init)) + log(ps[n]);
      assert Product(ps) > 0.0 by {
        assert Product(init) > 0.0 && ps[n] > 0.0;
      }
    }
  }

  /** A character of the processed word that is not a key of the
      vocabulary makes scoring fail: unknown symbols are never skipped. */
  lemma UnknownSymbolFails(word: string, m: Matrix, c2i: SymbolToIndex, start: Symbol, end: Symbol,
                           log: real -> real, k: int)
    requires var s := Processed(word, start, end); |s| >= 2 && 0 <= k < |s| && [s[k]] !in c2i
    ensures LogLikelihood(word, m, c2i, start, end, log).Err?
  {
    var s := Processed(word, start, end);
    var pairs := Bigrams(s);
    var t := if k < |s| - 1 then k else k - 1;
    assert pairs[t] == (s[t], s[t + 1]);
    assert PairStep(m, c2i)(pairs[t]) == PairProbability(m, c2i, pairs[t]);
    assert PairProbability(m, c2i, pairs[t]).Err?;
  }

  /** When every index the vocabulary hands out is a valid cell of the
      square matrix, scoring succeeds exactly when every character of the
      processed word is a key, and a failure names a missing character. */
  lemma ScoringFailsOnlyOnUnknownSymbols(word: string, m: Matrix, c2i: SymbolToIndex, start: Symbol, end: Symbol,
                                         log: real -> real)
    requires IndexesMatrix(c2i, m)
    requires |Processed(word, start, end)| >= 2
    ensures var s := Processed(word, start, end);
      LogLikelihood(word, m, c2i, start, end, log).Ok? <==> forall k :: 0 <= k < |s| ==> [s[k]] in c2i
    ensures var s := Processed(word, start, end);
      LogLikelihood(word, m, c2i, start, end, log).Err? ==>
        exists k :: 0 <= k < |s| && [s[k]] !in c2i &&
          LogLikelihood(word, m, c2i, start, end, log).error == UnknownSymbol([s[k]])
  {
    var s := Processed(word, start, end);
    var pairs := Bigrams(s);
    var f := PairStep(m, c2i);
    var r := PairProbabilities(m, c2i, pairs);
    if forall k :: 0 <= k < |s| ==> [s[k]] in c2i {
      forall t | 0 <= t < |pairs|
        ensures f(pairs[t]).Ok?
      {
        var j := c2i[[s[t]]];
        var k := c2i[[s[t + 1]]];
        assert CellAt(m, j, k) == Ok(m[j][k]);
      }
    } else {
      var k :| 0 <= k < |s| && [s[k]] !in c2i;
      UnknownSymbolFails(word, m, c2i, start, end, log, k);
    }
    if r.Err? {
      var t :| 0 <= t < |pairs| && FirstFailure(pairs, f, t) && r.error == f(pairs[t]).error;
      var cell := PairProbability(m, c2i, pairs[t]);
      assert f(pairs[t]) == cell;
      assert pairs[t] == (s[t], s[t + 1]);
      if [s[t]] in c2i && [s[t + 1]] in c2i {
        assert false;
      } else if [s[t]] !in c2i {
        assert r.error == UnknownSymbol([s[t]]);
      } else {
        assert r.error == UnknownSymbol([s[t + 1]]);
      }
    }
  }

  /** When every character of `s` is a key, the walk of `s` reads exactly
      the cells `m[c2i[s[t]]][c2i[s[t + 1]]]` of consecutive characters. */
  lemma {:induction false} WalkReadsCells(s: string, m: Matrix, c2i: SymbolToIndex)
    requires IndexesMatrix(c2i, m)
    requires forall k :: 0 <= k < |s| ==> [s[k]] in c2i
    ensures PairProbabilities(m, c2i, Bigrams(s)).Ok?
    ensures forall t :: 0 <= t < |Bigrams(s)| ==>
      PairProbabilities(m, c2i, Bigrams(s)).value[t] == m[c2i[[s[t]]]][c2i[[s[t + 1]]]]
  {
    var pairs := Bigrams(s);
    var f := PairStep(m, c2i);
    var cells := seq(|pairs|, t requires 0 <= t < |pairs| => m[c2i[[s[t]]]][c2i[[s[t + 1]]]]);
    forall t | 0 <= t < |pairs|
      ensures f(pairs[t]) == Ok(cells[t])
    {
      assert pairs[t] == (s[t], s[t + 1]);
      assert f(pairs[t]) == PairProbability(m, c2i, (s[t], s[t + 1]));
    }
    TraverseCollects(pairs, f, cells);
  }

  /** A word whose processed characters are all keys is scored, and its
      score is the sum of the logarithms of the cells its walk reads
      (`WalkReadsCells`). */
  lemma {:induction false} ScoreSumsLoggedCells(word: string, m: Matrix, c2i: SymbolToIndex, start: Symbol, end: Symbol,
                                                log: real -> real)
    requires IndexesMatrix(c2i, m)
    requires forall k :: 0 <= k < |Processed(word, start, end)| ==> [Processed(word, start, end)[k]] in c2i
    ensures var walk := PairProbabilities(m, c2i, Bigrams(Processed(word, start, end)));
      walk.Ok? && LogLikelihood(word, m, c2i, start, end, log) == Ok(Sum(MapRow(walk.value, log)))
  {
    var s := Processed(word, start, end);
    WalkReadsCells(s, m, c2i);
    WalkDecidesScore(word, m, c2i, start, end, log, PairProbabilities(m, c2i, Bigrams(s)));
  }

  /** The walk looks characters up one at a time, so a multi-character
      token such as "<S>" is split into '<', 'S' and '>': with a vocabulary
      keyed by whole tokens the very first lookup fails. */
  lemma MultiCharacterTokenIsSplit(m: Matrix, log: real -> real)
    ensures var c2i := map["<S>" := 0, "<E>" := 1, "a" := 2];
      LogLikelihood("a", m, c2i, "<S>", "<E>", log) == Err(UnknownSymbol("<"))
  {
    var c2i := map["<S>" := 0, "<E>" := 1, "a" := 2];
    var s := Processed("a", "<S>", "<E>");
    assert Lower("a") == "a";
    assert s == "<S>a<E>";
    var pairs := Bigrams(s);
    assert |pairs| == 6 && s[0] == '<' && s[1] == 'S';
    assert pairs[0] == ('<', 'S');
    var f := PairStep(m, c2i);
    assert ['<'] !in c2i;
    assert f(pairs[0]) == Err(UnknownSymbol("<"));
    TraverseFirstFailure(pairs, f, 0);
  }

  /** `calculate_log_likelihood` as the code writes it: build the processed
      string, then run the scoring loop over it. It computes `LogLikelihood`. */
  method ScoreWord(word: string, m: Matrix, c2i: SymbolToIndex, start: Symbol, end: Symbol,
                   log: real -> real) returns (r: Result<real>)
    ensures r == LogLikelihood(word, m, c2i, start, end, log)
  {
    var processed := Processed(word, start, end);
    r := ScoreString(processed, m, c2i, log);
    WalkDecidesScore(word, m, c2i, start, end, log, PairProbabilities(m, c2i, Bigrams(processed)));
  }

  /** The scoring loop: `i` runs from 1 to `|s| - 1`, each step looks up the
      pair `(s[i - 1], s[i])` and adds its log-probability to a running total.
      The first failing lookup ends the loop with its error. */
  method ScoreString(s: string, m: Matrix, c2i: SymbolToIndex, log: real -> real) returns (r: Result<real>)
    ensures var walk := PairProbabilities(m, c2i, Bigrams(s));
      r == if walk.Ok? then Ok(Sum(MapRow(walk.value, log))) else Err(walk.error)
  {
    ghost var pairs := Bigrams(s);
    ghost var f := PairStep(m, c2i);
    var total := 0.0;
    ghost var ps: seq<real> := [];
    var i := 1;
    while i < |s|
      invariant 1 <= i <= |s| || (|s| <= 1 && i == 1)
      invariant 0 <= i - 1 <= |pairs|
      invariant Traverse(pairs[..i - 1], f) == Ok(ps)
      invariant total == Sum(MapRow(ps, log))
    {
      var cell := PairProbability(m, c2i, (s[i - 1], s[i]));
      assert f(pairs[i - 1]) == cell;
      TraverseStep(pairs, f, i - 1, ps);
      if cell.Err? {
        return Err(cell.error);
      }
      SumMapAppend(ps, cell.value, log);
      total := total + log(cell.value);
      ps := ps + [cell.value];
      i := i + 1;
    }
    assert pairs[..i - 1] == pairs;
    r := Ok(total);
  }

  /** A word's score is decided by the probabilities of its walk. */
  lemma WalkDecidesScore(word: string, m: Matrix, c2i: SymbolToIndex, start: Symbol, end: Symbol,
                         log: real -> real, walk: Result<seq<real>>)
    requires walk == PairProbabilities(m, c2i, Bigrams(Processed(word, start, end)))
    ensures LogLikelihood(word, m, c2i, start, end, log) ==
      if walk.Ok? then Ok(Sum(MapRow(walk.value, log))) else Err(walk.error)
  {
  }

  // ---------------------------------------------------------------------------
  // The corpus metric

  function WordStep(m: Matrix, c2i: SymbolToIndex, start: Symbol, end: Symbol, log: real -> real)
    : string -> Result<real>
  {
    word => LogLikelihood(word, m, c2i, start, end, log)
  }

  /** The per-word log-likelihoods of a corpus, or the first word's error. */
  function WordScores(words: seq<string>, m: Matrix, c2i: SymbolToIndex, start: Symbol, end: Symbol,
                      log: real -> real): (r: Result<seq<real>>)
    ensures r.Ok? <==> forall t :: 0 <= t < |words| ==> LogLikelihood(words[t], m, c2i, start, end, log).Ok?
    ensures r.Ok? ==> |r.value| == |words|
    ensures r.Ok? ==> forall t :: 0 <= t < |words| ==> r.value[t] == LogLikelihood(words[t], m, c2i, start, end, log).value
    ensures r.Err? ==>
      exists t :: 0 <= t < |words| && LogLikelihood(words[t], m, c2i, start, end, log).Err? &&
        r.error == LogLikelihood(words[t], m, c2i, start, end, log).error
  {
    var f := WordStep(m, c2i, start, end, log);
    assert forall t :: 0 <= t < |words| ==> f(words[t]) == LogLikelihood(words[t], m, c2i, start, end, log);
    Traverse(words, f)
  }

  /** `calculate_neg_mean_log_likelihood`: the negated mean of the
      per-word log-likelihoods. Every word is scored before the division, so
      a failing word's error is raised before the division is reached. */
  function NegMeanLogLikelihood(words: seq<string>, m: Matrix, c2i: SymbolToIndex, start: Symbol, end: Symbol,
                                log: real -> real): (r: Result<real>)
    ensures |words| == 0 ==> r == Err(DivisionByZero)
    ensures r.Ok? <==> |words| > 0 && WordScores(words, m, c2i, start, end, log).Ok?
    ensures r.Ok? ==> r.value == -Sum(WordScores(words, m, c2i, start, end, log).value) / (|words| as real)
  {
    var scores := WordScores(words, m, c2i, start, end, log);
    if scores.Err? then Err(scores.error)
    else if |words| == 0 then Err(DivisionByZero)
    else Ok(-Sum(scores.value) / (|words| as real))
  }

  /** A non-empty corpus is scored exactly when every word is; its metric is
      then the negated mean of the words' log-likelihoods. This only puts the
      contracts of `NegMeanLogLikelihood` and `WordScores` together for
      callers; it adds no proof of its own. */
  lemma {:induction false} CorpusScoresWhenEveryWordScores(words: seq<string>, m: Matrix, c2i: SymbolToIndex, start: Symbol, end: Symbol,
                                                           log: real -> real)
    requires |words| > 0
    ensures NegMeanLogLikelihood(words, m, c2i, start, end, log).Ok? <==>
      forall t :: 0 <= t < |words| ==> LogLikelihood(words[t], m, c2i, start, end, log).Ok?
    ensures NegMeanLogLikelihood(words, m, c2i, start, end, log).Ok? ==>
      forall t :: 0 <= t < |words| ==>
        WordScores(words, m, c2i, start, end, log).value[t] == LogLikelihood(words[t], m, c2i, start, end, log).value
  {
    var f := WordStep(m, c2i, start, end, log);
    assert forall t :: 0 <= t < |words| ==> f(words[t]) == LogLikelihood(words[t], m, c2i, start, end, log);
  }

  /** When every word of a non-empty corpus scores, the corpus metric is
      the negated sum of those scores over the number of words. */
  lemma {:induction false} CorpusMetricIsNegatedMean(words: seq<string>, m: Matrix, c2i: SymbolToIndex, start: Symbol, end: Symbol,
                                                     log: real -> real, scores: seq<real>)
    requires |scores| == |words| > 0
    requires forall t :: 0 <= t < |words| ==> LogLikelihood(words[t], m, c2i, start, end, log) == Ok(scores[t])
    ensures NegMeanLogLikelihood(words, m, c2i, start, end, log) == Ok(-Sum(scores) / (|words| as real))
  {
    WordScoresCollect(words, m, c2i, start, end, log, scores);
    MeanOfCollectedScores(words, m, c2i, start, end, log, scores);
  }

  lemma {:induction false} WordScoresCollect(words: seq<string>, m: Matrix, c2i: SymbolToIndex, start: Symbol, end: Symbol,
                                             log: real -> real, scores: seq<real>)
    requires |scores| == |words|
    requires forall t :: 0 <= t < |words| ==> LogLikelihood(words[t], m, c2i, start, end, log) == Ok(scores[t])
    ensures WordScores(words, m, c2i, start, end, log) == Ok(scores)
  {
    var f := WordStep(m, c2i, start, end, log);
    forall t | 0 <= t < |words|
      ensures f(words[t]) == Ok(scores[t])
    {
      assert f(words[t]) == LogLikelihood(words[t], m, c2i, start, end, log);
    }
    TraverseCollects(words, f, scores);
  }

  lemma {:induction false} MeanOfCollectedScores(words: seq<string>, m: Matrix, c2i: SymbolToIndex, start: Symbol, end: Symbol,
                                                 log: real -> real, scores: seq<real>)
    requires |words| > 0 && WordScores(words, m, c2i, start, end, log) == Ok(scores)
    ensures NegMeanLogLikelihood(words, m, c2i, start, end, log) == Ok(-Sum(scores) / (|words| as real))
  {
  }

  /** A one-word corpus scores the negated log-likelihood of that word, and
      fails exactly as scoring that word fails. */
  lemma {:induction false} SingleWordCorpus(word: string, m: Matrix, c2i: SymbolToIndex, start: Symbol, end: Symbol,
                                            log: real -> real)
    ensures var ll := LogLikelihood(word, m, c2i, start, end, log);
      NegMeanLogLikelihood([word], m, c2i, start, end, log) == if ll.Ok? then Ok(-ll.value) else Err(ll.error)
  {
    SingleScoreCorpus(word, m, c2i, start, end, log, LogLikelihood(word, m, c2i, start, end, log));
  }

  /** `SingleWordCorpus` with the word's score named. */
  lemma {:induction false} SingleScoreCorpus(word: string, m: Matrix, c2i: SymbolToIndex, start: Symbol, end: Symbol,
                                             log: real -> real, ll: Result<real>)
    requires ll == LogLikelihood(word, m, c2i, start, end, log)
    ensures NegMeanLogLikelihood([word], m, c2i, start, end, log) == if ll.Ok? then Ok(-ll.value) else Err(ll.error)
  {
    var f := WordStep(m, c2i, start, end, log);
    assert f(word) == ll;
    TraverseSingle(word, f);
    assert WordScores([word], m, c2i, start, end, log) == Traverse([word], f);
    if ll.Ok? {
      SumSingle(ll.value);
    }
  }

  /** Under a matrix of positive probabilities every word of a scored
      corpus has a non-positive log-likelihood. */
  lemma {:induction false} WordScoresNonPositive(words: seq<string>, m: Matrix, c2i: SymbolToIndex, start: Symbol, end: Symbol,
                                                 log: real -> real)
    requires PositiveProbabilities(m) && NonPositiveOnProbabilities(log)
    ensures WordScores(words, m, c2i, start, end, log).Ok? ==>
      forall t :: 0 <= t < |words| ==> WordScores(words, m, c2i, start, end, log).value[t] <= 0.0
  {
    var scores := WordScores(words, m, c2i, start, end, log);
    var f := WordStep(m, c2i, start, end, log);
    if scores.Ok? {
      forall t | 0 <= t < |words|
        ensures scores.value[t] <= 0.0
      {
        assert f(words[t]) == LogLikelihood(words[t], m, c2i, start, end, log);
        LogLikelihoodNonPositive(words[t], m, c2i, start, end, log);
      }
    }
  }

  /** Under a matrix of positive probabilities the corpus metric is never
      negative. */
  lemma {:induction false} NegMeanNonNegative(words: seq<string>, m: Matrix, c2i: SymbolToIndex, start: Symbol, end: Symbol,
                                              log: real -> real)
    requires PositiveProbabilities(m) && NonPositiveOnProbabilities(log)
    ensures NegMeanLogLikelihood(words, m, c2i, start, end, log).Ok? ==>
      NegMeanLogLikelihood(words, m, c2i, start, end, log).value >= 0.0
  {
    var scores := WordScores(words, m, c2i, start, end, log);
    if scores.Ok? && |words| > 0 {
      WordScoresNonPositive(words, m, c2i, start, end, log);
      SumNonPositive(scores.value);
      NonNegativeQuotient(-Sum(scores.value), |words| as real);
    }
  }

  /** A failing corpus reports the error of its first failing word. */
  lemma {:induction false} CorpusReportsFirstFailure(words: seq<string>, m: Matrix, c2i: SymbolToIndex, start: Symbol, end: Symbol,
                                                     log: real -> real, t: int)
    requires 0 <= t < |words|
    requires LogLikelihood(words[t], m, c2i, start, end, log).Err?
    requires forall u :: 0 <= u < t ==> LogLikelihood(words[u], m, c2i, start, end, log).Ok?
    ensures NegMeanLogLikelihood(words, m, c2i, start, end, log) == Err(LogLikelihood(words[t], m, c2i, start, end, log).error)
  {
    var f := WordStep(m, c2i, start, end, log);
    assert forall u :: 0 <= u <= t ==> f(words[u]) == LogLikelihood(words[u], m, c2i, start, end, log);
    TraverseFirstFailure(words, f, t);
  }

  lemma NonNegativeQuotient(x: real, n: real)
    requires x >= 0.0 && n > 0.0
    ensures x / n >= 0.0
  {
  }
}

=== FILE: vocabulary.dfy ===
/** The two dictionaries that tie symbols to rows and columns of the bigram
    matrix: `char_to_index` (symbol -> index) and `idx_to_char`
    (index -> symbol). Both are built outside the modelled code; here they are
    plain maps and a lookup that fails like a Python dictionary does. */
module Vocabulary {
  import opened Results

  /** A symbol is a Python string: one character, or a control token such
      as "<S>". */
  type Symbol = string

  type SymbolToIndex = map<Symbol, int>
  type IndexToSymbol = map<int, Symbol>

  /** `char_to_index[sym]`: a KeyError when the symbol is not a key. */
  function IndexOf(c2i: SymbolToIndex, sym: Symbol): Result<int> {
    if sym in c2i then Ok(c2i[sym]) else Err(UnknownSymbol(sym))
  }

  /** `idx_to_char[i]`: a KeyError when the index is not a key. */
  function SymbolOf(i2c: IndexToSymbol, i: int): Result<Symbol> {
    if i in i2c then Ok(i2c[i]) else Err(UnknownIndex(i))
  }

  /** The vocabulary invariant: indices are dense in 0..n-1, and the two
      dictionaries are inverse to each other. */
  predicate Consistent(c2i: SymbolToIndex, i2c: IndexToSymbol, n: nat) {
    && (forall i :: 0 <= i < n ==> i in i2c)
    && (forall i :: i in i2c ==> 0 <= i < n)
    && (forall i :: i in i2c ==> i2c[i] in c2i && c2i[i2c[i]] == i)
    && (forall sym :: sym in c2i ==> c2i[sym] in i2c && i2c[c2i[sym]] == sym)
  }
}
